=== FILE: README.md ===
# youtube-self-host video controller, modelled in Dafny

The backend of youtube-self-host is one Express controller,
`backend/src/controllers/videoController.js`. It lists the videos in a
`videos/` folder, with pagination or a title search. It streams a video file,
serves a thumbnail from `thumbnails/` and runs ffmpeg when the thumbnail is
missing. It also runs yt-dlp on a URL and then rewrites `_` and `-` in every
file name to spaces.

This project models the pure logic under the filesystem and subprocess calls
as pure functions:

- the directory is an immutable snapshot (`Snapshot.Dir`, `Snapshot.Fs`);
- each external tool's run is a parameter saying how it ended;
- every handler returns the response it sends. The thumbnail and download
  handlers also return the tools they start and the renames they issue.

Modules:

- `Wrappers`: `Option` and `Result`.
- `Seqs`: order-preserving `Filter` and the `Sublist` relation.
- `JsStrings`: the JavaScript string operations the controller uses: `indexOf`,
  `includes`, `replace` with a string pattern, `endsWith`, ASCII
  `toLowerCase`, and Node's `path.basename(p, ext)`.
- `Snapshot`: the folders as `readdir` and `stat` see them.
- `Catalog`: `getVideoFiles`, title and sidecar-name derivation, metadata
  loading, the symbolic SHA-256 identifier, and entry assembly.
- `Pagination`: `parseInt(x) || d` and `Array.prototype.slice`, including its
  negative-bound clamping.
- `Search`: the case-insensitive substring filter.
- `Rename`: the `_`/`-` to space rewrite and the rename pass.
- `Handlers`: `getAllVideos`, `filterVideosByTitle`, `getVideoThumbnail`,
  `serveVideo` and `downloadVideo`.

Modelling choices:

- **Metadata** is represented by its `JSON.stringify` text. A sidecar file in
  the snapshot carries the outcome of `JSON.parse`: the re-serialised value,
  or `None` when parsing throws. A video without a sidecar gets `{}`.
- **The identifier** is the symbolic term `Sha256(title + metadata)`.
  Determinism is immediate. "Changing only the title or only the metadata
  changes the id" (`Catalog.VideoIdSeparates`) rests on treating the digest as
  collision-free. Title and metadata are joined without a separator, so
  changing both can keep the id (`Catalog.VideoIdJoinCollision`).
- **`parseInt`** is abstract: a request parameter is given as the integer it
  parsed to, or `NaN`.

Behaviour that may look unintended is modelled as the code does it:

- A negative `page` or `limit` is kept by `||` rather than defaulted. `slice`
  then counts the bounds back from the end of the list
  (`Pagination.NegativePageCountsFromEnd`, `Pagination.NegativeLimitFirstPage`).
- The title removes the first `.mp4` anywhere in the name, not a suffix. A
  `.webm` file keeps its extension in its title, so its sidecar is looked up
  as `<name>.webm.info.json` (`Catalog.WebmKeepsExtension`).
- A malformed sidecar aborts the whole listing with a 500, even when it
  belongs to a video on another page (`Handlers.ListVideos`). In the search
  handler the same failure is not caught. It reaches the framework's default
  error handler (`Response.Unhandled`).
- The thumbnail handler only checks that `<title>.mp4` exists. The serve
  handler also requires a regular file. A folder named like a video is
  therefore a 404 for serving but starts ffmpeg for a thumbnail
  (`Handlers.FolderNamedLikeVideo`).
- `res.sendFile` of a thumbnail fails on anything but a regular file. A
  folder named `<title>.jpg` counts as a cached thumbnail, so ffmpeg never
  replaces it, and sending it ends in the framework's 404. A frame grab that
  exits cleanly without writing also ends in that 404. So does a title
  starting with `.`, because `sendFile` ignores dotfiles by default
  (`Response.NotSent`, `Handlers.ThumbnailNotSent`).

## Model

| member | source | states |
|---|---|---|
| Catalog.VideoFiles | backend/src/controllers/videoController.js:8-15 | one entry per kept name, in directory order: entry i carries the i-th `.mp4`/`.webm` name and its title; never more entries than names |
| Catalog.Title | backend/src/controllers/videoController.js:12 | the title is the name with its first `.mp4` cut out: the text before that occurrence followed by the text after it; a name without `.mp4` is its own title |
| Catalog.VideoFilesNames | backend/src/controllers/videoController.js:9-12 | every listed file is a directory name ending in `.mp4` or `.webm`, titled by `Title`; every such name is listed; the kept names are an order-preserving sublist of the directory |
| Catalog.VideoFilesAppend | backend/src/controllers/videoController.js:9-10 | listing two runs of names is listing each in turn: nothing added, dropped or reordered |
| Catalog.TitleRoundTrip | backend/src/controllers/videoController.js:12 | the title drops exactly the first `.mp4`; reinserting it at that index gives the file name back; a name without `.mp4` is its own title |
| Catalog.WebmKeepsExtension | backend/src/controllers/videoController.js:10-12 | a `.webm` name without `.mp4` is listed, is its own title, and its sidecar is `<name>.webm.info.json` |
| Catalog.SidecarName | backend/src/controllers/videoController.js:60-61 | a title ending in `.mp4` loses that suffix before `.info.json` is appended; any other title keeps its whole text |
| Catalog.Mp4Title | backend/src/controllers/videoController.js:12 | for a stem without `.mp4` in it (such as `Ep.1`), `stem.mp4` is titled `stem` and its sidecar is `stem.info.json` |
| Catalog.VideoIdSeparates | backend/src/controllers/videoController.js:73-75 | with a collision-free digest, changing only the title or only the metadata changes the id |
| Catalog.VideoIdJoinCollision | backend/src/controllers/videoController.js:73-75 | the hashed text joins title and metadata with no separator, so moving characters from the title's end to the metadata's front keeps the id (`a1`+`2` and `a`+`12`) |
| Catalog.LoadMetadata | backend/src/controllers/videoController.js:61-71 | no sidecar gives `{}`; an existing sidecar that is a folder or not JSON fails; otherwise the parsed value |
| Catalog.Entries | backend/src/controllers/videoController.js:60-82 | entries are assembled one per file in order with id over title and metadata; the map fails exactly when some file's sidecar fails |
| Catalog.CatalogTitles | backend/src/controllers/videoController.js:77-81 | an assembled catalog has one entry per video file, with that file's title and the id of its title and metadata |
| JsStrings.IndexOf | backend/src/controllers/videoController.js:12 | the index found is an occurrence with none before it; no index is found only when there is no occurrence |
| JsStrings.ReplaceFirst | backend/src/controllers/videoController.js:12 | only the first occurrence is replaced, the text around it is kept, and without an occurrence the string is unchanged |
| JsStrings.BaseName | backend/src/controllers/videoController.js:61 | a trailing extension is removed (appending it back restores the input), otherwise the input is returned |
| JsStrings.ToLower | backend/src/controllers/videoController.js:109 | lower-casing preserves length and maps each character through ASCII lower-casing |
| JsStrings.ToLowerIdempotent | backend/src/controllers/videoController.js:135 | lower-casing a lower-cased string changes nothing |
| Pagination.OrDefault | backend/src/controllers/videoController.js:84-85 | `NaN` and 0 give the default, any other integer (negatives too) is kept, and the result is never 0 |
| Pagination.Slice | backend/src/controllers/videoController.js:90 | the slice has length max(0, clamped end - clamped start) and holds the elements from the clamped start |
| Pagination.Paginate | backend/src/controllers/videoController.js:86-90 | the page is the run of the list between `slice`'s clamped bounds for `(page - 1) * limit` and `page * limit` |
| Pagination.PageWindow | backend/src/controllers/videoController.js:86-90 | for positive page and limit the page is the contiguous run from `(page-1)*limit` of length `min(limit, max(0, n-(page-1)*limit))`, empty past the end |
| Pagination.PagesTile | backend/src/controllers/videoController.js:86-90 | with a positive limit, pages 1..k laid end to end are exactly the first `min(k*limit, n)` entries |
| Pagination.PagesCoverAll | backend/src/controllers/videoController.js:86-90 | enough pages cover the whole list with every entry on exactly one page, in order |
| Pagination.NegativePageCountsFromEnd | backend/src/controllers/videoController.js:84-90 | a negative page is not defaulted; its bounds count back from the end of the list |
| Pagination.NegativeLimitFirstPage | backend/src/controllers/videoController.js:85-90 | a negative limit on page 1 returns all but the last `-limit` entries |
| Pagination.TwentyFiveEntries | backend/src/controllers/videoController.js:84-90 | 25 entries with limit 10: pages 1, 3, 4 hold 10, 5, 0 entries |
| Search.FilterByTitle | backend/src/controllers/videoController.js:134-136 | the result holds exactly the entries whose title matches, with their multiplicities, as an order-preserving sublist |
| Search.Matches | backend/src/controllers/videoController.js:109-135 | a title matches exactly when the lower-cased query occurs at some index of the lower-cased title |
| Search.FilterByTitleAppend | backend/src/controllers/videoController.js:134-136 | searching two runs of entries searches each in turn |
| Search.EmptyQueryKeepsAll | backend/src/controllers/videoController.js:109-136 | the empty query returns every entry |
| Search.MatchesIgnoresCase | backend/src/controllers/videoController.js:109-135 | lower-casing the title or the query beforehand does not change whether they match |
| Search.CatMatchesCats | backend/src/controllers/videoController.js:109-135 | the query `cat` matches the title `Cats are great` |
| Rename.NormalizeSpec | backend/src/controllers/videoController.js:153 | the new name has the old length, contains no `_` or `-`, has a space where they were and agrees with the old name everywhere else |
| Rename.Normalize | backend/src/controllers/videoController.js:153 | the name keeps its length and each character is rewritten on its own: `_` and `-` become a space, anything else stays |
| Rename.NormalizeIdempotent | backend/src/controllers/videoController.js:153 | normalising twice equals normalising once |
| Rename.NormalizeKeepsIndexOf | backend/src/controllers/videoController.js:12 | a pattern without `_`, `-` or space is first found at the same index before and after normalisation |
| Rename.NormalizeCommutesWithTitle | backend/src/controllers/videoController.js:12-153 | taking the title of a renamed name gives the renamed title |
| Rename.NormalizeKeepsSidecarPairing | backend/src/controllers/videoController.js:12-153 | a renamed video stays listed, and the sidecar looked up for its title is the renamed sidecar |
| Rename.RenamePass | backend/src/controllers/videoController.js:145-164 | one rename per listed name, in listing order, from the name to its normalised form |
| Rename.RenamePassIdempotent | backend/src/controllers/videoController.js:150-163 | no rename target holds `_` or `-`, and a pass over those targets renames every name onto itself |
| Handlers.ListVideos | backend/src/controllers/videoController.js:54-103 | 500 exactly when some listed sidecar fails; otherwise 200 with the full count as total, non-zero defaulted page and limit, and the sliced page |
| Handlers.ListVideosWindow | backend/src/controllers/videoController.js:84-98 | for positive page and limit the listed videos are the run `[(page-1)*limit, page*limit)` of the catalog, clamped, empty past the end |
| Handlers.ListVideosTotalIgnoresPage | backend/src/controllers/videoController.js:93-94 | the total is the catalog size whatever page is requested |
| Handlers.ListVideosDefaults | backend/src/controllers/videoController.js:84-85 | with no usable page or limit the response is page 1 of at most 10 entries from the start |
| Handlers.SearchVideos | backend/src/controllers/videoController.js:106-142 | an uncaught fault exactly when some sidecar fails; otherwise 200 whose total is the result's length and whose videos are the matching entries, each as often as in the catalog, as an ordered sublist |
| Handlers.SearchEmptyQuery | backend/src/controllers/videoController.js:109-141 | an empty query returns the whole catalog |
| Handlers.SearchNoMatch | backend/src/controllers/videoController.js:134-141 | a query nothing matches returns total 0 and no videos |
| Handlers.Thumbnail | backend/src/controllers/videoController.js:17-51 | no video: 404 and ffmpeg not run; whatever exists at `<title>.jpg` is sent without running it; otherwise it runs once, failure is 500, success sends its output; a send is 200 only for a regular file whose name is not a dotfile, and the framework's 404 when the path holds a folder, nothing or a dotfile |
| Handlers.SendThumbnail | backend/src/controllers/videoController.js:34-46 | for a plain GET the send is 200 exactly when the path holds a regular file whose name is not a dotfile, and otherwise the framework's 404 |
| Handlers.ThumbnailsAfter | backend/src/controllers/videoController.js:37-46 | when the frame grab runs and leaves output, `<title>.jpg` becomes a regular file of that size; every other name keeps its node; otherwise the folder is unchanged |
| Handlers.AfterThumbnail | backend/src/controllers/videoController.js:37-46 | the videos folder is untouched; the thumbnails folder changes at most at `<title>.jpg`, and not at all when ffmpeg did not run or left nothing; a run that left output leaves a regular file there |
| Handlers.ThumbnailKeepsOthers | backend/src/controllers/videoController.js:37-46 | a thumbnail request leaves every other title's thumbnail as it was, present or absent |
| Handlers.GeneratedThumbnailIsCached | backend/src/controllers/videoController.js:31-46 | a frame grab that wrote its output sends it (a dotfile name gets the framework's 404), and the next request gives the same answer without running ffmpeg |
| Handlers.ThumbnailNotSent | backend/src/controllers/videoController.js:31-46 | a folder named `<title>.jpg`, a clean run that wrote nothing, and a cached regular thumbnail of a title starting with `.` all end in the framework's 404 |
| Handlers.PartialThumbnailIsServedLater | backend/src/controllers/videoController.js:31-46 | a failed run that left a file answers 500, and the next request sends that file (a dotfile name gets the framework's 404) without regenerating |
| Handlers.Serve | backend/src/controllers/videoController.js:198-227 | 404 exactly when `<title>.mp4` is missing or not a regular file; otherwise `video/mp4` with the file's size as length |
| Handlers.ServeTenBytes | backend/src/controllers/videoController.js:211-213 | a 10-byte video is sent as `video/mp4` with `Content-Length` 10 |
| Handlers.FolderNamedLikeVideo | backend/src/controllers/videoController.js:25-37 | a missing video is 404 for both handlers; a folder named `<title>.mp4` is 404 to serve but runs ffmpeg for a thumbnail |
| Handlers.Download | backend/src/controllers/videoController.js:168-192 | a falsy URL is 400 with no downloader run; otherwise one run; failure is 500 with stderr and no renames; success is 200 with the rename pass |
| Handlers.DownloadNormalisesFolder | backend/src/controllers/videoController.js:184-190 | a successful download issues the rename pass over the listing, and no rename target holds `_` or `-` |
| Handlers.DownloadKeepsCleanNames | backend/src/controllers/videoController.js:150-190 | for a listing in any order, the next successful download renames each name to its normal form, and every name already free of `_` and `-` onto itself |

## Left out

- File I/O (`readdirSync`, `stat`, `existsSync`, `readFileSync`, `rename`, `createReadStream`) is replaced by the snapshot. `sendFile` is reduced to its outcome on the snapshot: the file is sent when it is a regular file whose name is not a dotfile, and the framework answers 404 otherwise; the bytes sent and headers such as `Content-Type` are not modelled. The bytes of a streamed file are not modelled, and neither is the 500 sent on a mid-stream read error (lines 219-222).
- A `readdirSync` failure is not modelled. The snapshot's listing always succeeds. The `readdir` failure inside the rename pass is modelled: no renames.
- The exact ffmpeg and yt-dlp command lines, and the tools themselves, are left out. A run is only its outcome: failed or not, its output texts, and any file it left.
- SHA-256 and JSON parsing and serialisation are symbolic. The digest is assumed collision-free.
- `parseInt` on the raw query text is not modelled. Values above 2^53, where JavaScript numbers lose precision, are not modelled either.
- Search with an absent or non-string `title` query is not modelled. When it is absent, or an array or object (`?title=a&title=b`, `?title[x]=1`), `req.query.title.toLowerCase()` throws and the framework answers 500. The source has no client-error branch for it, and the model takes the query as a string.
- `decodeURIComponent`, `path.join` and `__dirname` are not modelled. A title is an already-decoded name inside the folder, so titles containing separators or `..` are not resolved.
- Handlers.Thumbnail: request headers are not modelled, so statuses are those of a plain GET; `sendFile` honours `Range` and conditional headers, which can turn a sent thumbnail into 206, 304 or 416. It also assumes a regular file that is not a dotfile can be read. An unreadable file (permissions, a read error) makes `sendFile` end in a 500, which is not modelled. The dotfile test looks at the thumbnail's own name only, assuming the installation path has no segment starting with `.`.
- JsStrings.ToLower: covers ASCII letters only. JavaScript's `toLowerCase` also folds non-ASCII letters.
- Search.Matches: inherits the ASCII-only lower-casing above.
- Handlers.Download: takes the `url` body field as absent or a string. Other JSON types (numbers, `false`, objects) are not modelled.
- Rename.RenamePass: lists the renames issued, not their effect on the folder. `Rename.Targets` and the lemmas about it take the folder to hold the targets afterwards, which assumes each rename succeeds; a failed `fs.rename` (lines 157-159) is only logged and leaves the old name, with its `_` or `-`, in place. Collisions such as `a_b` and `a-b` both becoming `a b`, and the async ordering of the renames, are filesystem races that are not modelled.
- Concurrency between requests is not modelled. Examples are two simultaneous thumbnail generations, or a rename pass running during a listing.
- Route wiring, CORS, JSON body parsing and port binding (`backend/src/app.js`, `backend/src/routes/videoRoute.js`) are not modelled.

=== FILE: catalog.dfy ===
/** The video catalog: `getVideoFiles` (which names count as videos and what
    their titles are), the sidecar lookup and the identifier of each entry,
    shared by the listing and the search handlers. */
module Catalog {
  import opened Wrappers
  import opened JsStrings
  import opened Seqs
  import opened Snapshot

  const Mp4: string := ".mp4"
  const Webm: string := ".webm"
  const SidecarSuffix: string := ".info.json"
  /** `JSON.stringify({})`: the metadata of a video without a sidecar. */
  const EmptyMetadata: string := "{}"

  /** The listing keeps names ending in `.mp4` or `.webm`. */
  predicate IsVideoName(name: string) {
    EndsWith(name, Mp4) || EndsWith(name, Webm)
  }

  /** The title of a video file: `file.replace('.mp4', '')`, which removes the
      FIRST `.mp4` anywhere in the name, not a suffix. */
  function Title(name: string): (t: string)
    ensures IndexOf(name, Mp4).None? ==> t == name
    ensures IndexOf(name, Mp4).Some? ==>
      var i := IndexOf(name, Mp4).value;
      && |t| == |name| - |Mp4|
      && t[..i] == name[..i]
      && t[i..] == name[i + |Mp4|..]
  {
    ReplaceFirst(name, Mp4, "")
  }

  /** The sidecar file consulted for a title: `path.basename(title, '.mp4')`
      followed by `.info.json`. */
  function SidecarName(title: string): (r: string)
    ensures EndsWith(title, Mp4) ==> r == title[..|title| - |Mp4|] + SidecarSuffix
    ensures !EndsWith(title, Mp4) ==> r == title + SidecarSuffix
  {
    BaseName(title, Mp4) + SidecarSuffix
  }

  /** One element of `getVideoFiles`: the title and the file's name inside
      the videos folder (the source joins the folder path onto it). */
  datatype VideoFile = VideoFile(title: string, name: string)

  function ToVideoFile(name: string): VideoFile {
    VideoFile(Title(name), name)
  }

  /** `getVideoFiles`: filter the directory listing by extension, then map
      each name to its title. */
  function VideoFiles(names: seq<string>): (r: seq<VideoFile>)
    ensures |r| == |Filter(IsVideoName, names)| <= |names|
    ensures forall i :: 0 <= i < |r| ==> r[i] == ToVideoFile(Filter(IsVideoName, names)[i])
  {
    var kept := Filter(IsVideoName, names);
    seq(|kept|, i requires 0 <= i < |kept| => ToVideoFile(kept[i]))
  }

  /** The listing holds exactly the directory names ending in `.mp4` or
      `.webm`, each titled by `Title`, in directory order. */
  lemma VideoFilesNames(names: seq<string>)
    ensures forall f :: f in VideoFiles(names) ==>
      f.name in names && IsVideoName(f.name) && f.title == Title(f.name)
    ensures forall n :: n in names && IsVideoName(n) ==> ToVideoFile(n) in VideoFiles(names)
    ensures Sublist(Filter(IsVideoName, names), names)
  {
    var kept := Filter(IsVideoName, names);
    var r := VideoFiles(names);
    forall f | f in r ensures f.name in names && IsVideoName(f.name) && f.title == Title(f.name) {
      var i :| 0 <= i < |r| && r[i] == f;
      assert kept[i] in kept;
    }
    forall n | n in names && IsVideoName(n) ensures ToVideoFile(n) in r {
      assert n in kept;
      var i :| 0 <= i < |kept| && kept[i] == n;
      assert r[i] == ToVideoFile(n);
    }
    FilterIsSublist(IsVideoName, names);
  }

  /** Listing two runs of directory entries lists each run in turn: nothing
      is added, dropped or reordered across the boundary. */
  lemma VideoFilesAppend(a: seq<string>, b: seq<string>)
    ensures VideoFiles(a + b) == VideoFiles(a) + VideoFiles(b)
  {
    FilterAppend(IsVideoName, a, b);
    var ka := Filter(IsVideoName, a);
    var kb := Filter(IsVideoName, b);
    var l := VideoFiles(a + b);
    var la := VideoFiles(a);
    var lb := VideoFiles(b);
    assert |l| == |la + lb|;
    forall i | 0 <= i < |l| ensures l[i] == (la + lb)[i] {
      assert l[i] == ToVideoFile((ka + kb)[i]);
      if i < |la| {
        assert (ka + kb)[i] == ka[i];
      } else {
        assert (ka + kb)[i] == kb[i - |la|];
      }
    }
  }

  /** Title derivation is undone by putting `.mp4` back where its first
      occurrence was; a name without `.mp4` is its own title. */
  lemma TitleRoundTrip(name: string)
    ensures IndexOf(name, Mp4).None? ==> Title(name) == name
    ensures IndexOf(name, Mp4).Some? ==>
      var i := IndexOf(name, Mp4).value;
      && |Title(name)| == |name| - |Mp4|
      && Title(name)[..i] + Mp4 + Title(name)[i..] == name
  {
    if IndexOf(name, Mp4).Some? {
      var i := IndexOf(name, Mp4).value;
      var t := Title(name);
      assert t[..i] == name[..i];
      assert t[i..] == name[i + |Mp4|..];
      assert name[i..i + |Mp4|] == Mp4;
      assert name == name[..i] + name[i..i + |Mp4|] + name[i + |Mp4|..];
    }
  }

  /** A `.webm` file (or any name without `.mp4`) keeps its extension in the
      title, and its sidecar is looked up under the full name. */
  lemma WebmKeepsExtension(name: string)
    requires EndsWith(name, Webm)
    requires !Includes(name, Mp4)
    ensures IsVideoName(name)
    ensures Title(name) == name
    ensures SidecarName(Title(name)) == name + SidecarSuffix
  {
    if EndsWith(name, Mp4) {
      EndsWithOccurs(name, Mp4);
      assert false;
    }
  }

  /** Appending `.mp4` to a name without `.mp4` creates no occurrence that
      starts inside the name: one wholly inside would already be there, and
      one straddling the join would put the appended `.` at a position of
      `.mp4` that holds a letter. */
  lemma NoEarlierMp4(stem: string, i: int)
    requires !Includes(stem, Mp4)
    requires 0 <= i < |stem|
    ensures !OccursAt(stem + Mp4, Mp4, i)
  {
    var name := stem + Mp4;
    if i + |Mp4| <= |stem| {
      assert name[i..i + |Mp4|] == stem[i..i + |Mp4|];
      assert OccursAt(name, Mp4, i) == OccursAt(stem, Mp4, i);
    } else if i + |Mp4| <= |name| {
      var k := |stem| - i;
      assert 1 <= k < |Mp4|;
      assert name[i..i + |Mp4|][k] == name[i + k] == name[|stem|] == Mp4[0];
      assert Mp4[k] != '.';
    }
  }

  /** `<stem>.mp4`, for a stem without `.mp4` in it, has the stem as its
      title, and the sidecar consulted is `<stem>.info.json`. */
  lemma Mp4Title(stem: string)
    requires !Includes(stem, Mp4)
    ensures IsVideoName(stem + Mp4)
    ensures Title(stem + Mp4) == stem
    ensures SidecarName(Title(stem + Mp4)) == stem + SidecarSuffix
  {
    var name := stem + Mp4;
    assert name[|stem|..|stem| + |Mp4|] == Mp4;
    assert OccursAt(name, Mp4, |stem|);
    forall j | 0 <= j < |stem| ensures !OccursAt(name, Mp4, j) {
      NoEarlierMp4(stem, j);
    }
    var i := IndexOf(name, Mp4).value;
    assert i == |stem|;
    TitleRoundTrip(name);
    assert Title(name) == name[..|stem|] == stem;
    assert !EndsWith(stem, Mp4) by {
      if |Mp4| <= |stem| {
        assert OccursAt(stem, Mp4, |stem| - |Mp4|) == EndsWith(stem, Mp4);
      }
    }
  }

  /** The identifier: SHA-256 of the title followed by the serialised
      metadata. The digest is kept symbolic: two identifiers are equal
      exactly when the hashed texts are, the idealisation of a
      collision-free hash. */
  datatype Digest = Sha256(input: string)

  function VideoId(title: string, metadata: string): Digest {
    Sha256(title + metadata)
  }

  /** Changing only the title, or only the metadata, changes the id. */
  lemma VideoIdSeparates(t1: string, m1: string, t2: string, m2: string)
    ensures VideoId(t1, m1) == VideoId(t2, m2) && t1 == t2 ==> m1 == m2
    ensures VideoId(t1, m1) == VideoId(t2, m2) && m1 == m2 ==> t1 == t2
  {
    if VideoId(t1, m1) == VideoId(t2, m2) {
      var s := t1 + m1;
      assert s == t2 + m2;
      if t1 == t2 {
        assert m1 == s[|t1|..] == m2;
      }
      if m1 == m2 {
        assert |t1| == |t2|;
        assert t1 == s[..|t1|] == t2;
      }
    }
  }

  /** The hashed text has no separator between title and metadata, so
      moving characters from the end of the title to the front of the
      metadata keeps the id: `a1` with metadata `2` and `a` with metadata
      `12` share one. Changing both can therefore leave the id unchanged. */
  lemma VideoIdJoinCollision(title: string, moved: string, metadata: string)
    ensures VideoId(title + moved, metadata) == VideoId(title, moved + metadata)
    ensures moved != [] ==> title + moved != title && moved + metadata != metadata
  {
    assert (title + moved) + metadata == title + (moved + metadata);
    if moved != [] {
      assert |title + moved| != |title|;
      assert |moved + metadata| != |metadata|;
    }
  }

  /** An entry of the listing and search responses. */
  datatype Video = Video(id: Digest, title: string, metadata: string)

  /** Why an entry could not be assembled: its sidecar exists but reading
      or parsing it threw. */
  datatype Fault = SidecarUnreadable(sidecar: string)

  /** The sidecar metadata of a title: `{}` when `existsSync` says there is
      none; otherwise `readFileSync` then `JSON.parse`, either of which may
      throw (a folder of that name, or text that is not JSON). */
  function LoadMetadata(videos: Dir, title: string): (r: Result<string, Fault>)
    ensures !Exists(videos, SidecarName(title)) ==> r == Ok(EmptyMetadata)
    ensures r.Err? <==>
      (&& Exists(videos, SidecarName(title))
       && (videos.nodes[SidecarName(title)].Folder? || videos.nodes[SidecarName(title)].json.None?))
    ensures r.Ok? && Exists(videos, SidecarName(title)) ==>
      r.value == videos.nodes[SidecarName(title)].json.value
  {
    var sidecar := SidecarName(title);
    if sidecar !in videos.nodes then Ok(EmptyMetadata)
    else match videos.nodes[sidecar]
      case Folder => Err(SidecarUnreadable(sidecar))
      case File(_, None) => Err(SidecarUnreadable(sidecar))
      case File(_, Some(json)) => Ok(json)
  }

  /** The sidecar of this file loads. */
  predicate Loads(videos: Dir, f: VideoFile) {
    LoadMetadata(videos, f.title).Ok?
  }

  /** The entry built for a file whose sidecar loads. */
  function Entry(videos: Dir, f: VideoFile): Video
    requires Loads(videos, f)
  {
    var metadata := LoadMetadata(videos, f.title).value;
    Video(VideoId(f.title, metadata), f.title, metadata)
  }

  /** The `videos.map(...)` step shared by both listing handlers: one entry
      per file, in order; the first sidecar that throws aborts the whole map. */
  function Entries(videos: Dir, files: seq<VideoFile>): (r: Result<seq<Video>, Fault>)
    ensures r.Ok? <==> forall i :: 0 <= i < |files| ==> Loads(videos, files[i])
    ensures r.Ok? ==> |r.value| == |files|
    ensures r.Ok? ==> forall i :: 0 <= i < |files| ==>
      r.value[i].title == files[i].title &&
      r.value[i] == Entry(videos, files[i])
    ensures r.Err? ==> exists i :: (0 <= i < |files| && !Loads(videos, files[i]) &&
                                    r.error == LoadMetadata(videos, files[i].title).error)
  {
    if files == [] then Ok([])
    else match LoadMetadata(videos, files[0].title)
      case Err(e) => Err(e)
      case Ok(_) =>
        match Entries(videos, files[1..])
        case Err(e) => Err(e)
        case Ok(rest) => Ok([Entry(videos, files[0])] + rest)
  }

  /** Every entry of the videos folder, as both listing handlers assemble it
      before paginating or filtering. */
  function AllEntries(videos: Dir): Result<seq<Video>, Fault> {
    Entries(videos, VideoFiles(videos.names))
  }

  /** Two entries with the same title and metadata carry the same id, and an
      assembled catalog lists exactly the titles of the video files. */
  lemma CatalogTitles(videos: Dir)
    requires AllEntries(videos).Ok?
    ensures |AllEntries(videos).value| == |VideoFiles(videos.names)|
    ensures forall i :: 0 <= i < |AllEntries(videos).value| ==>
      AllEntries(videos).value[i].title == Title(VideoFiles(videos.names)[i].name) &&
      AllEntries(videos).value[i].id == VideoId(AllEntries(videos).value[i].title, AllEntries(videos).value[i].metadata)
  {
    var files := VideoFiles(videos.names);
    VideoFilesNames(videos.names);
    forall i | 0 <= i < |files| ensures files[i].title == Title(files[i].name) {
      assert files[i] in files;
    }
  }
}

=== FILE: handlers.dfy ===
/** The five request handlers of the controller as pure functions from a
    filesystem snapshot, the request's inputs and the outcome of any external
    tool to the response sent, the tools invoked and the renames issued. */
module Handlers {
  import opened Wrappers
  import opened Seqs
  import opened Snapshot
  import opened Catalog
  import opened Pagination
  import opened Search
  import opened Rename

  /** The JSON bodies the handlers send. */
  datatype Body =
    | Message(message: string)
    | ErrorOnly(error: string)
    | ErrorDetails(error: string, details: string)
    | DownloadStarted(message: string, output: string, error: string)
    | VideoPage(total: nat, page: int, limit: int, videos: seq<Video>)
    | SearchResult(total: nat, videos: seq<Video>)

  datatype Root = VideosFolder | ThumbnailsFolder

  /** What reaches the client: a JSON body with a status, a regular file
      sent by `res.sendFile`, a file piped after `Content-Type` and
      `Content-Length` headers, a `res.sendFile` whose target is missing or a
      folder (the framework passes the request on and ends with its default
      404 page), or an exception escaping the handler, which the framework
      answers with its default 500 page. */
  datatype Response =
    | Json(status: nat, body: Body)
    | SendFile(folder: Root, name: string)
    | StreamFile(contentType: string, contentLength: nat, name: string)
    | NotSent
    | Unhandled

  /** The status line of a response. */
  function StatusOf(r: Response): nat {
    match r
    case Json(status, _) => status
    case SendFile(_, _) => 200
    case StreamFile(_, _, _) => 200
    case NotSent => 404
    case Unhandled => 500
  }

  /** An external process started by a handler: the frame grab from `input`
      into `output`, or the downloader for a URL. */
  datatype Invocation = FrameGrab(input: string, output: string) | Downloader(url: string)

  /** How a downloader run ended: whether `exec` reported an error (non-zero
      exit or failure to start) and the text it captured. */
  datatype ProcessResult = ProcessResult(failed: bool, stdout: string, stderr: string)

  /** How a frame-grab run ended: whether `exec` reported an error, and the
      size of the file it left at the output path, if any. A run can fail
      after writing a truncated file, or exit cleanly without writing one. */
  datatype FrameGrabResult = FrameGrabResult(failed: bool, output: Option<nat>)

  /** Everything a request does that the model observes. */
  datatype Handled = Handled(response: Response, invoked: seq<Invocation>, renames: seq<Rename>)

  const JpgExtension: string := ".jpg"
  const VideoContentType: string := "video/mp4"

  function VideoFileName(title: string): string { title + Mp4 }
  function ThumbnailName(title: string): string { title + JpgExtension }

  /** Some listed video's sidecar exists but cannot be read or parsed. */
  predicate SomeSidecarFails(videos: Dir) {
    exists i :: 0 <= i < |VideoFiles(videos.names)| && !Loads(videos, VideoFiles(videos.names)[i])
  }

  /** The catalog assembles exactly when no listed sidecar fails: the link
      between the handlers' error branches and `Catalog.Entries`. */
  lemma CatalogLoads(videos: Dir)
    ensures AllEntries(videos).Ok? <==> !SomeSidecarFails(videos)
  {
  }

  // ---------------------------------------------------------------------
  // GET /api/videos/ : getAllVideos

  /** `getAllVideos`: assemble every entry, then return the requested page.
      A failing sidecar anywhere in the folder, even off the requested page,
      turns the whole response into a 500. */
  function ListVideos(videos: Dir, pageParam: ParsedInt, limitParam: ParsedInt): (r: Response)
    ensures r.Json?
    ensures r.status == 500 <==> SomeSidecarFails(videos)
    ensures r.status == 500 ==> r.body == Message("Error retrieving videos")
    ensures r.status != 500 ==>
      && r.status == 200
      && r.body.VideoPage?
      && r.body.total == |VideoFiles(videos.names)|
      && r.body.page == OrDefault(pageParam, DefaultPage) != 0
      && r.body.limit == OrDefault(limitParam, DefaultLimit) != 0
      && r.body.videos == Paginate(AllEntries(videos).value, r.body.page, r.body.limit)
  {
    CatalogLoads(videos);
    match AllEntries(videos)
    case Err(_) => Json(500, Message("Error retrieving videos"))
    case Ok(all) =>
      var page := OrDefault(pageParam, DefaultPage);
      var limit := OrDefault(limitParam, DefaultLimit);
      Json(200, VideoPage(|all|, page, limit, Paginate(all, page, limit)))
  }

  /** For positive page and limit the listed videos are the contiguous run
      of the catalog starting at `(page - 1) * limit`, of length `limit` or
      whatever is left; a page past the end is empty. */
  lemma ListVideosWindow(videos: Dir, page: int, limit: int)
    requires !SomeSidecarFails(videos)
    requires page >= 1 && limit >= 1
    ensures var all := AllEntries(videos).value;
      var r := ListVideos(videos, Int(page), Int(limit));
      && PageFrom(page, limit, |all|) == Min((page - 1) * limit, |all|)
      && PageTo(page, limit, |all|) == Min(page * limit, |all|)
      && r.body.videos == all[PageFrom(page, limit, |all|)..PageTo(page, limit, |all|)]
      && |r.body.videos| == Min(limit, Max(0, |all| - (page - 1) * limit))
      && (|all| <= (page - 1) * limit ==> r.body.videos == [])
  {
    PageWindow(AllEntries(videos).value, page, limit);
  }

  /** The total is the size of the whole catalog whatever page is asked
      for. */
  lemma ListVideosTotalIgnoresPage(videos: Dir, page1: ParsedInt, page2: ParsedInt, limit: ParsedInt)
    requires !SomeSidecarFails(videos)
    ensures ListVideos(videos, page1, limit).body.total == ListVideos(videos, page2, limit).body.total
            == |AllEntries(videos).value|
  {
  }

  /** Absent or unparsable page and limit give page 1 of 10 entries. */
  lemma ListVideosDefaults(videos: Dir)
    requires !SomeSidecarFails(videos)
    ensures var r := ListVideos(videos, NaN, NaN);
      && r.body.page == 1 && r.body.limit == 10
      && r.body.videos == AllEntries(videos).value[..PageTo(1, 10, |AllEntries(videos).value|)]
      && |r.body.videos| == Min(10, |AllEntries(videos).value|)
  {
    PageWindow(AllEntries(videos).value, 1, 10);
  }

  // ---------------------------------------------------------------------
  // GET /api/videos/search : filterVideosByTitle

  /** `filterVideosByTitle` for a present `title` query: assemble every
      entry, keep the matching ones. Here a failing sidecar is not caught. */
  function SearchVideos(videos: Dir, query: string): (r: Response)
    ensures r.Unhandled? <==> SomeSidecarFails(videos)
    ensures !r.Unhandled? ==>
      && r.Json? && r.status == 200 && r.body.SearchResult?
      && r.body.total == |r.body.videos|
      && Sublist(r.body.videos, AllEntries(videos).value)
      && (forall v :: v in r.body.videos <==> v in AllEntries(videos).value && Matches(v.title, query))
      && (forall v :: multiset(r.body.videos)[v] ==
            if Matches(v.title, query) then multiset(AllEntries(videos).value)[v] else 0)
  {
    CatalogLoads(videos);
    match AllEntries(videos)
    case Err(_) => Unhandled
    case Ok(all) =>
      var found := FilterByTitle(all, query);
      Json(200, SearchResult(|found|, found))
  }

  /** The empty query returns the whole catalog. */
  lemma SearchEmptyQuery(videos: Dir)
    requires !SomeSidecarFails(videos)
    ensures SearchVideos(videos, "").body.videos == AllEntries(videos).value
  {
    EmptyQueryKeepsAll(AllEntries(videos).value);
  }

  /** A query no title matches gives `{ total: 0, videos: [] }`. */
  lemma SearchNoMatch(videos: Dir, query: string)
    requires !SomeSidecarFails(videos)
    requires forall v :: v in AllEntries(videos).value ==> !Matches(v.title, query)
    ensures SearchVideos(videos, query) == Json(200, SearchResult(0, []))
  {
  }

  // ---------------------------------------------------------------------
  // GET /api/videos/thumbnail/:title : getVideoThumbnail

  /** The frame grab runs exactly when `<title>.mp4` exists (file or
      folder: `fs.stat` does not tell them apart) and nothing exists at
      `<title>.jpg`. */
  predicate GrabRuns(fs: Fs, title: string) {
    Exists(fs.videos, VideoFileName(title)) && !Exists(fs.thumbnails, ThumbnailName(title))
  }

  /** The thumbnails folder after a thumbnail request: whatever the frame
      grab left at the output path, if it ran. */
  function ThumbnailsAfter(fs: Fs, title: string, run: FrameGrabResult): (d: Dir)
    ensures !GrabRuns(fs, title) || run.output.None? ==> d == fs.thumbnails
    ensures GrabRuns(fs, title) && run.output.Some? ==>
      IsRegularFile(d, ThumbnailName(title)) && d.nodes[ThumbnailName(title)].size == run.output.value
    ensures forall n :: n != ThumbnailName(title) ==> (n in d.nodes <==> n in fs.thumbnails.nodes)
    ensures forall n :: n != ThumbnailName(title) && n in fs.thumbnails.nodes ==>
      d.nodes[n] == fs.thumbnails.nodes[n]
  {
    if GrabRuns(fs, title) && run.output.Some? then
      WriteFile(fs.thumbnails, ThumbnailName(title), File(run.output.value, None))
    else fs.thumbnails
  }

  /** A name `res.sendFile` treats as a dotfile: longer than one character
      and starting with `.`. Without options it ignores such files, which
      answers 404. */
  predicate Hidden(name: string) {
    |name| > 1 && name[0] == '.'
  }

  /** `res.sendFile` of a thumbnail: the file when it is a regular file with
      a name that is not hidden, the framework's 404 when it is missing, a
      folder or hidden. */
  function SendThumbnail(thumbnails: Dir, name: string): (r: Response)
    ensures StatusOf(r) == 200 <==> IsRegularFile(thumbnails, name) && !Hidden(name)
    ensures r.SendFile? || r.NotSent?
    ensures r.SendFile? ==> r == SendFile(ThumbnailsFolder, name)
  {
    if IsRegularFile(thumbnails, name) && !Hidden(name) then SendFile(ThumbnailsFolder, name) else NotSent
  }

  /** `getVideoThumbnail`: 404 without `<title>.mp4`; whatever already exists
      at `<title>.jpg` is sent as is; otherwise one frame grab is run, and
      its output sent, or 500 if it failed. Sending fails (framework 404)
      when the path holds a folder or nothing, or names a dotfile. */
  function Thumbnail(fs: Fs, title: string, run: FrameGrabResult): (h: Handled)
    ensures h.renames == [] && |h.invoked| <= 1
    ensures !Exists(fs.videos, VideoFileName(title)) ==>
      h.response == Json(404, Message("Video not found")) && h.invoked == []
    ensures h.invoked != [] <==> GrabRuns(fs, title)
    ensures h.invoked != [] ==> h.invoked == [FrameGrab(VideoFileName(title), ThumbnailName(title))]
    ensures StatusOf(h.response) == 500 <==> GrabRuns(fs, title) && run.failed
    ensures StatusOf(h.response) == 500 ==> h.response == Json(500, Message("Error generating thumbnail"))
    ensures Exists(fs.videos, VideoFileName(title)) && !(GrabRuns(fs, title) && run.failed) ==>
      h.response == SendThumbnail(ThumbnailsAfter(fs, title, run), ThumbnailName(title))
    ensures h.response.SendFile? <==> StatusOf(h.response) == 200
  {
    var video := VideoFileName(title);
    var thumb := ThumbnailName(title);
    if !Exists(fs.videos, video) then
      Handled(Json(404, Message("Video not found")), [], [])
    else if Exists(fs.thumbnails, thumb) then
      Handled(SendThumbnail(fs.thumbnails, thumb), [], [])
    else if run.failed then
      Handled(Json(500, Message("Error generating thumbnail")), [FrameGrab(video, thumb)], [])
    else
      Handled(SendThumbnail(ThumbnailsAfter(fs, title, run), thumb), [FrameGrab(video, thumb)], [])
  }

  /** The snapshot after a thumbnail request: only the thumbnails folder can
      change, and only by the file a frame grab left. */
  function AfterThumbnail(fs: Fs, title: string, run: FrameGrabResult): (fs': Fs)
    ensures fs'.videos == fs.videos
    ensures Thumbnail(fs, title, run).invoked == [] ==> fs' == fs
    ensures Thumbnail(fs, title, run).invoked != [] && run.output.Some? ==>
      IsRegularFile(fs'.thumbnails, ThumbnailName(title))
    ensures run.output.None? ==> fs' == fs
    ensures forall n :: n != ThumbnailName(title) ==>
      && (n in fs'.thumbnails.nodes <==> n in fs.thumbnails.nodes)
      && (n in fs.thumbnails.nodes ==> fs'.thumbnails.nodes[n] == fs.thumbnails.nodes[n])
  {
    fs.(thumbnails := ThumbnailsAfter(fs, title, run))
  }

  /** Once a frame grab has produced a thumbnail it is sent (unless its
      name is a dotfile), and the next request for the same title is a cache
      hit with the same answer: the frame grab is not run again. */
  lemma GeneratedThumbnailIsCached(fs: Fs, title: string, size: nat, next: FrameGrabResult)
    requires GrabRuns(fs, title)
    ensures var run := FrameGrabResult(false, Some(size));
      var first := Thumbnail(fs, title, run).response;
      && (!Hidden(ThumbnailName(title)) ==> first == SendFile(ThumbnailsFolder, ThumbnailName(title)))
      && (Hidden(ThumbnailName(title)) ==> first == NotSent)
      && Thumbnail(AfterThumbnail(fs, title, run), title, next) == Handled(first, [], [])
  {
  }

  /** A failed frame grab that left a truncated file behind answers 500, but
      the next request finds that file and sends it without regenerating
      (a dotfile name still ends in the framework's 404). */
  lemma PartialThumbnailIsServedLater(fs: Fs, title: string, size: nat, next: FrameGrabResult)
    requires GrabRuns(fs, title)
    ensures StatusOf(Thumbnail(fs, title, FrameGrabResult(true, Some(size))).response) == 500
    ensures var second := Thumbnail(AfterThumbnail(fs, title, FrameGrabResult(true, Some(size))), title, next);
      && second.invoked == []
      && (!Hidden(ThumbnailName(title)) ==> second.response == SendFile(ThumbnailsFolder, ThumbnailName(title)))
      && (Hidden(ThumbnailName(title)) ==> second.response == NotSent)
  {
  }

  /** A thumbnail request never touches another title's thumbnail. */
  lemma ThumbnailKeepsOthers(fs: Fs, title: string, other: string, run: FrameGrabResult)
    requires other != title
    ensures Exists(AfterThumbnail(fs, title, run).thumbnails, ThumbnailName(other)) ==
            Exists(fs.thumbnails, ThumbnailName(other))
    ensures Exists(fs.thumbnails, ThumbnailName(other)) ==>
      AfterThumbnail(fs, title, run).thumbnails.nodes[ThumbnailName(other)] ==
      fs.thumbnails.nodes[ThumbnailName(other)]
  {
    ThumbnailNameInjective(title, other);
  }

  /** Distinct titles have distinct thumbnail names. */
  lemma ThumbnailNameInjective(a: string, b: string)
    ensures ThumbnailName(a) == ThumbnailName(b) ==> a == b
  {
    if ThumbnailName(a) == ThumbnailName(b) {
      assert |a| == |b|;
      assert a == ThumbnailName(a)[..|a|];
      assert b == ThumbnailName(b)[..|b|];
    }
  }

  /** `res.sendFile` is not guaranteed to send a file: a folder named
      `<title>.jpg` passes the existence check and is never regenerated, a
      frame grab that exits cleanly without writing leaves nothing to send,
      and a title starting with `.` names a dotfile, which is ignored even
      when cached as a regular file. All end in the framework's 404. */
  lemma ThumbnailNotSent(fs: Fs, title: string, run: FrameGrabResult)
    requires Exists(fs.videos, VideoFileName(title))
    ensures |title| > 0 && title[0] == '.' && IsRegularFile(fs.thumbnails, ThumbnailName(title)) ==>
      Thumbnail(fs, title, run) == Handled(NotSent, [], [])
    ensures Exists(fs.thumbnails, ThumbnailName(title)) && fs.thumbnails.nodes[ThumbnailName(title)].Folder? ==>
      Thumbnail(fs, title, run) == Handled(NotSent, [], [])
    ensures GrabRuns(fs, title) && !run.failed && run.output.None? ==>
      Thumbnail(fs, title, run) == Handled(NotSent, [FrameGrab(VideoFileName(title), ThumbnailName(title))], [])
  {
  }

  // ---------------------------------------------------------------------
  // GET /api/videos/serve/:title : serveVideo

  /** `serveVideo`: 404 unless `<title>.mp4` is a regular file; otherwise the
      whole file with its type and byte length in the headers. */
  function Serve(fs: Fs, title: string): (r: Response)
    ensures r.Json? <==> !IsRegularFile(fs.videos, VideoFileName(title))
    ensures r.Json? ==> r == Json(404, Message("Video not found"))
    ensures !r.Json? ==>
      && r.StreamFile?
      && r.contentType == VideoContentType
      && r.name == VideoFileName(title)
      && r.contentLength == fs.videos.nodes[VideoFileName(title)].size
  {
    var video := VideoFileName(title);
    if !IsRegularFile(fs.videos, video) then Json(404, Message("Video not found"))
    else StreamFile(VideoContentType, fs.videos.nodes[video].size, video)
  }

  /** An existing 10-byte `<title>.mp4` is served as `video/mp4` with
      `Content-Length: 10`. */
  lemma ServeTenBytes(fs: Fs, title: string)
    requires VideoFileName(title) in fs.videos.nodes
    requires fs.videos.nodes[VideoFileName(title)].File?
    requires fs.videos.nodes[VideoFileName(title)].size == 10
    ensures Serve(fs, title) == StreamFile("video/mp4", 10, VideoFileName(title))
  {
  }

  /** The two handlers that resolve `<title>.mp4` disagree on a folder of
      that name: serving answers 404, while the thumbnail handler (which only
      checks existence) goes on to run the frame grab when no thumbnail is
      cached. Both answer 404 when nothing of that name exists. */
  lemma FolderNamedLikeVideo(fs: Fs, title: string, run: FrameGrabResult)
    ensures !Exists(fs.videos, VideoFileName(title)) ==>
      StatusOf(Serve(fs, title)) == 404 && StatusOf(Thumbnail(fs, title, run).response) == 404
    ensures Exists(fs.videos, VideoFileName(title)) && fs.videos.nodes[VideoFileName(title)].Folder? &&
            !Exists(fs.thumbnails, ThumbnailName(title)) ==>
      StatusOf(Serve(fs, title)) == 404 && Thumbnail(fs, title, run).invoked != []
  {
  }

  // ---------------------------------------------------------------------
  // POST /api/videos/download : downloadVideo

  /** JavaScript truthiness of the `url` body field, taken as absent or a
      string. */
  predicate Truthy(url: Option<string>) {
    url.Some? && url.value != ""
  }

  /** `downloadVideo`: 400 without a URL; otherwise the downloader runs
      once. On failure the answer is 500 with its diagnostic output and no
      rename pass; on success the rename pass runs over the folder listing
      (none if that listing fails) and the answer is 200. */
  function Download(url: Option<string>, run: ProcessResult, listing: Option<seq<string>>): (h: Handled)
    ensures !Truthy(url) ==>
      h == Handled(Json(400, ErrorOnly("YouTube URL is required.")), [], [])
    ensures Truthy(url) ==> h.invoked == [Downloader(url.value)]
    ensures StatusOf(h.response) == 500 <==> Truthy(url) && run.failed
    ensures StatusOf(h.response) == 500 ==>
      h.response == Json(500, ErrorDetails("Failed to download video.", run.stderr)) && h.renames == []
    ensures StatusOf(h.response) == 200 <==> Truthy(url) && !run.failed
    ensures StatusOf(h.response) == 200 ==>
      && h.response == Json(200, DownloadStarted("Video download started.", run.stdout, run.stderr))
      && h.renames == (if listing.Some? then RenamePass(listing.value) else [])
    ensures h.renames != [] ==> StatusOf(h.response) == 200
  {
    if !Truthy(url) then
      Handled(Json(400, ErrorOnly("YouTube URL is required.")), [], [])
    else if run.failed then
      Handled(Json(500, ErrorDetails("Failed to download video.", run.stderr)), [Downloader(url.value)], [])
    else
      var renames := if listing.Some? then RenamePass(listing.value) else [];
      Handled(Json(200, DownloadStarted("Video download started.", run.stdout, run.stderr)), [Downloader(url.value)], renames)
  }

  /** After a successful download no rename target holds `_` or `-`. */
  lemma DownloadNormalisesFolder(url: Option<string>, run: ProcessResult, names: seq<string>)
    requires Truthy(url) && !run.failed
    ensures Download(url, run, Some(names)).renames == RenamePass(names)
    ensures var after := Targets(RenamePass(names));
      && |after| == |names|
      && (forall i, k :: 0 <= i < |after| && 0 <= k < |after[i]| ==> !IsSeparator(after[i][k]))
  {
    RenamePassIdempotent(names);
  }

  /** Whatever order the next successful download's listing has, its pass
      renames each name to its normal form, and every name already free of
      `_` and `-` (such as a target of an earlier pass, by
      `DownloadNormalisesFolder`) onto itself. */
  lemma DownloadKeepsCleanNames(url: Option<string>, run: ProcessResult, listing: seq<string>)
    requires Truthy(url) && !run.failed
    ensures var again := Download(url, run, Some(listing)).renames;
      && again == RenamePass(listing)
      && |again| == |listing|
      && (forall i :: 0 <= i < |listing| ==> again[i].from == listing[i] && again[i].to == Normalize(listing[i]))
      && (forall i :: 0 <= i < |listing| && (forall k :: 0 <= k < |listing[i]| ==> !IsSeparator(listing[i][k])) ==>
            again[i].from == again[i].to == listing[i])
  {
    forall i | 0 <= i < |listing| && (forall k :: 0 <= k < |listing[i]| ==> !IsSeparator(listing[i][k]))
      ensures Normalize(listing[i]) == listing[i]
    {
      NormalizeFixesClean(listing[i]);
    }
  }
}

=== FILE: jsstrings.dfy ===
/** The JavaScript string operations the controller relies on, written out
    over `seq<char>`: `indexOf`, `includes`, `replace` with a string pattern,
    `endsWith`, `toLowerCase` (ASCII letters only) and Node's
    `path.basename(p, ext)` for names without a directory part. */
module JsStrings {
  import opened Wrappers

  /** `pat` occurs in `s` starting at index `i`. */
  predicate OccursAt(s: string, pat: string, i: int) {
    0 <= i && i + |pat| <= |s| && s[i..i + |pat|] == pat
  }

  /** The first occurrence of `pat` in `s` at or after `from`, if any. */
  function IndexOfFrom(s: string, pat: string, from: nat): (r: Option<nat>)
    ensures r.Some? ==> from <= r.value && OccursAt(s, pat, r.value)
    ensures r.Some? ==> forall j :: from <= j < r.value ==> !OccursAt(s, pat, j)
    ensures r.None? ==> forall j :: from <= j ==> !OccursAt(s, pat, j)
    decreases |s| - from
  {
    if |s| < from + |pat| then None
    else if s[from..from + |pat|] == pat then Some(from)
    else IndexOfFrom(s, pat, from + 1)
  }

  /** `String.prototype.indexOf`, with `None` for JavaScript's -1: the
      least index at which `pat` occurs. */
  function IndexOf(s: string, pat: string): (r: Option<nat>)
    ensures r.Some? ==> OccursAt(s, pat, r.value)
    ensures r.Some? ==> forall j :: 0 <= j < r.value ==> !OccursAt(s, pat, j)
    ensures r.None? <==> forall j :: !OccursAt(s, pat, j)
  {
    IndexOfFrom(s, pat, 0)
  }

  /** `String.prototype.includes`. */
  function Includes(s: string, pat: string): (b: bool)
    ensures b <==> exists i :: OccursAt(s, pat, i)
  {
    IndexOf(s, pat).Some?
  }

  /** `String.prototype.replace` with a string (not a regular expression)
      pattern: only the FIRST occurrence is replaced; with no occurrence the
      string comes back unchanged. The replacements used here contain no `$`,
      so JavaScript's replacement patterns play no part. */
  function ReplaceFirst(s: string, pat: string, rep: string): (r: string)
    ensures IndexOf(s, pat).None? ==> r == s
    ensures IndexOf(s, pat).Some? ==>
      var i := IndexOf(s, pat).value;
      && |r| == |s| - |pat| + |rep|
      && r[..i] == s[..i]
      && r[i..i + |rep|] == rep
      && r[i + |rep|..] == s[i + |pat|..]
  {
    match IndexOf(s, pat)
    case None => s
    case Some(i) => s[..i] + rep + s[i + |pat|..]
  }

  /** Replacing the first occurrence by nothing deletes it. */
  lemma DeleteFirst(s: string, pat: string)
    requires IndexOf(s, pat).Some?
    ensures var i := IndexOf(s, pat).value;
      ReplaceFirst(s, pat, "") == s[..i] + s[i + |pat|..]
  {
  }

  /** `String.prototype.endsWith`. */
  predicate EndsWith(s: string, suffix: string) {
    |suffix| <= |s| && s[|s| - |suffix|..] == suffix
  }

  /** A string that ends with `suffix` has an occurrence of it there. */
  lemma EndsWithOccurs(s: string, suffix: string)
    requires EndsWith(s, suffix)
    ensures OccursAt(s, suffix, |s| - |suffix|)
  {
  }

  /** Node's `path.basename(p, ext)` for a `p` with no path separator (every
      name read from a directory listing): a trailing `ext` is removed, and
      `p == ext` gives the empty string. */
  function BaseName(p: string, ext: string): (r: string)
    ensures |ext| > 0 && EndsWith(p, ext) ==> r + ext == p
    ensures !(|ext| > 0 && EndsWith(p, ext)) ==> r == p
  {
    if |ext| > 0 && EndsWith(p, ext) then p[..|p| - |ext|] else p
  }

  /** `toLowerCase` restricted to ASCII: `A`..`Z` map to `a`..`z`. */
  function LowerChar(c: char): char {
    if 'A' <= c <= 'Z' then (c as int + 32) as char else c
  }

  /** `String.prototype.toLowerCase`, ASCII letters only. */
  function ToLower(s: string): (r: string)
    ensures |r| == |s|
    ensures forall i :: 0 <= i < |s| ==> r[i] == LowerChar(s[i])
  {
    if s == [] then [] else [LowerChar(s[0])] + ToLower(s[1..])
  }

  /** Lower-casing is idempotent. */
  lemma ToLowerIdempotent(s: string)
    ensures ToLower(ToLower(s)) == ToLower(s)
  {
    var once := ToLower(s);
    assert forall i :: 0 <= i < |once| ==> ToLower(once)[i] == once[i];
  }

  /** Every string includes the empty string (at index 0). */
  lemma IncludesEmpty(s: string)
    ensures Includes(s, "")
  {
    assert OccursAt(s, "", 0);
  }
}

=== FILE: pagination.dfy ===
/** Pagination of the listing handler: the `parseInt(x) || default` defaults
    and `Array.prototype.slice((page - 1) * limit, page * limit)`, including
    what `slice` does with negative bounds. */
module Pagination {

  /** What `parseInt` returns: an integer or `NaN`. */
  datatype ParsedInt = NaN | Int(value: int)

  /** `parseInt(x) || d`: `NaN` and zero are falsy and give way to `d`; every
      other integer, negative ones included, is kept. */
  function OrDefault(p: ParsedInt, d: int): (r: int)
    ensures p.NaN? ==> r == d
    ensures p.Int? && p.value == 0 ==> r == d
    ensures p.Int? && p.value != 0 ==> r == p.value
    ensures d != 0 ==> r != 0
  {
    if p.Int? && p.value != 0 then p.value else d
  }

  const DefaultPage: int := 1
  const DefaultLimit: int := 10

  function Min(a: int, b: int): int { if a <= b then a else b }
  function Max(a: int, b: int): int { if a <= b then b else a }

  /** How `Array.prototype.slice` turns a bound into an index: a negative
      bound counts back from the end and stops at 0, a non-negative one
      stops at the length. */
  function RelativeIndex(k: int, len: nat): (r: nat)
    ensures r <= len
    ensures k >= 0 ==> r == Min(k, len)
    ensures k < 0 ==> r == Max(len + k, 0)
  {
    if k < 0 then (if len + k < 0 then 0 else len + k)
    else if k < len then k else len
  }

  /** `Array.prototype.slice(start, end)`: the elements from the converted
      start up to the converted end; empty when the end is not past the
      start. */
  function Slice<T>(s: seq<T>, start: int, end: int): (r: seq<T>)
    ensures |r| == Max(RelativeIndex(end, |s|) - RelativeIndex(start, |s|), 0)
    ensures forall i :: 0 <= i < |r| ==> r[i] == s[RelativeIndex(start, |s|) + i]
  {
    var from := RelativeIndex(start, |s|);
    var to := RelativeIndex(end, |s|);
    if from < to then s[from..to] else []
  }

  /** Where the page starts and stops in a list of `len` entries, after
      `slice` has converted and clamped both bounds. */
  function PageFrom(page: int, limit: int, len: nat): (r: nat)
    ensures r <= len
  {
    RelativeIndex((page - 1) * limit, len)
  }

  function PageTo(page: int, limit: int, len: nat): (r: nat)
    ensures PageFrom(page, limit, len) <= r <= len
  {
    Max(PageFrom(page, limit, len), RelativeIndex(page * limit, len))
  }

  /** The page the listing returns for already-defaulted `page` and `limit`. */
  function Paginate<T>(all: seq<T>, page: int, limit: int): (r: seq<T>)
    ensures r == all[PageFrom(page, limit, |all|)..PageTo(page, limit, |all|)]
  {
    Slice(all, (page - 1) * limit, page * limit)
  }

  /** The arithmetic behind a positive page's bounds. */
  lemma PageBounds(page: int, limit: int)
    requires page >= 1 && limit >= 1
    ensures (page - 1) * limit >= 0
    ensures page * limit == (page - 1) * limit + limit
  {
  }

  /** For positive `page` and `limit` a page is the contiguous run starting
      at `(page - 1) * limit`, of length `limit` or whatever is left, and a
      page past the end is empty rather than an error. */
  lemma PageWindow<T>(all: seq<T>, page: int, limit: int)
    requires page >= 1 && limit >= 1
    ensures PageFrom(page, limit, |all|) == Min((page - 1) * limit, |all|)
    ensures PageTo(page, limit, |all|) == Min(page * limit, |all|)
    ensures |Paginate(all, page, limit)| == Min(limit, Max(0, |all| - (page - 1) * limit))
    ensures |all| <= (page - 1) * limit ==> Paginate(all, page, limit) == []
  {
    PageBounds(page, limit);
  }

  /** Pages `1..k` laid end to end. */
  function FirstPages<T>(all: seq<T>, limit: int, k: nat): seq<T> {
    if k == 0 then [] else FirstPages(all, limit, k - 1) + Paginate(all, k, limit)
  }

  /** With a positive limit the first `k` pages tile a prefix of the full
      list: no entry is skipped or repeated between consecutive pages. */
  lemma {:induction false} PagesTile<T>(all: seq<T>, limit: int, k: nat)
    requires limit >= 1
    ensures FirstPages(all, limit, k) == all[..Min(k * limit, |all|)]
  {
    if k > 0 {
      PagesTile(all, limit, k - 1);
      PageWindow(all, k, limit);
      var a := PageFrom(k, limit, |all|);
      var b := PageTo(k, limit, |all|);
      assert a == Min((k - 1) * limit, |all|);
      assert b == Min(k * limit, |all|);
      assert FirstPages(all, limit, k - 1) == all[..a];
      assert Paginate(all, k, limit) == all[a..b];
      assert all[..a] + all[a..b] == all[..b];
    }
  }

  /** Enough pages of a positive limit cover the whole list exactly once. */
  lemma PagesCoverAll<T>(all: seq<T>, limit: int, k: nat)
    requires limit >= 1
    requires k * limit >= |all|
    ensures FirstPages(all, limit, k) == all
  {
    PagesTile(all, limit, k);
  }

  /** A negative page is not defaulted; `slice` then counts both bounds back
      from the end, so page -1 is the run just before the last `limit`
      entries. */
  lemma NegativePageCountsFromEnd<T>(all: seq<T>, page: int, limit: int)
    requires page <= -1 && limit >= 1
    ensures PageFrom(page, limit, |all|) == Max(|all| + (page - 1) * limit, 0)
    ensures PageTo(page, limit, |all|) == Max(|all| + page * limit, 0)
    ensures |Paginate(all, page, limit)| == Min(limit, Max(|all| + page * limit, 0))
  {
    assert page * limit <= -1;
    assert (page - 1) * limit == page * limit - limit;
  }

  /** A negative limit on page 1 drops the last `-limit` entries instead of
      being rejected. */
  lemma NegativeLimitFirstPage<T>(all: seq<T>, limit: int)
    requires limit <= -1
    ensures Paginate(all, 1, limit) == all[..Max(|all| + limit, 0)]
    ensures |all| > -limit ==> |Paginate(all, 1, limit)| == |all| + limit
  {
  }

  /** With 25 entries and a limit of 10, pages 1, 3 and 4 hold 10, 5 and 0
      entries. */
  lemma TwentyFiveEntries<T>(all: seq<T>)
    requires |all| == 25
    ensures |Paginate(all, 1, 10)| == 10
    ensures |Paginate(all, 3, 10)| == 5
    ensures Paginate(all, 4, 10) == []
  {
    PageWindow(all, 1, 10);
    PageWindow(all, 3, 10);
    PageWindow(all, 4, 10);
  }
}

=== FILE: rename.dfy ===
/** The filename normalisation pass `renameFiles` that follows a successful
    download: every `_` and `-` in every name becomes a space. */
module Rename {
  import opened JsStrings
  import opened Catalog

  /** The characters the pattern `/[_-]/g` matches. */
  predicate IsSeparator(c: char) {
    c == '_' || c == '-'
  }

  /** What the pass does to one character. */
  function NormalizeChar(c: char): (d: char)
    ensures !IsSeparator(d)
  {
    if IsSeparator(c) then ' ' else c
  }

  /** `file.replace(/[_-]/g, ' ')`: the name with every `_` and `-` made a
      space and every other character kept. */
  function Normalize(name: string): (r: string)
    ensures |r| == |name|
    ensures forall i :: 0 <= i < |name| ==> r[i] == NormalizeChar(name[i])
  {
    seq(|name|, i requires 0 <= i < |name| => NormalizeChar(name[i]))
  }

  /** The new name has the old length, holds no `_` or `-`, has a space
      wherever one of them stood and agrees with the old name at every other
      position. */
  lemma NormalizeSpec(name: string)
    ensures |Normalize(name)| == |name|
    ensures forall i :: 0 <= i < |name| ==> !IsSeparator(Normalize(name)[i])
    ensures forall i :: 0 <= i < |name| && IsSeparator(name[i]) ==> Normalize(name)[i] == ' '
    ensures forall i :: 0 <= i < |name| && !IsSeparator(name[i]) ==> Normalize(name)[i] == name[i]
  {
  }

  /** Normalising twice is normalising once. */
  lemma NormalizeIdempotent(name: string)
    ensures Normalize(Normalize(name)) == Normalize(name)
  {
    var once := Normalize(name);
    forall i | 0 <= i < |once| ensures Normalize(once)[i] == once[i] {
      assert !IsSeparator(once[i]);
    }
  }

  /** A name without separators is left alone. */
  lemma NormalizeFixesClean(name: string)
    requires forall i :: 0 <= i < |name| ==> !IsSeparator(name[i])
    ensures Normalize(name) == name
  {
    forall i | 0 <= i < |name| ensures Normalize(name)[i] == name[i] {
    }
  }

  /** Normalisation works character by character, so it commutes with
      slicing and concatenation. */
  lemma NormalizeSlice(s: string, a: int, b: int)
    requires 0 <= a <= b <= |s|
    ensures Normalize(s)[a..b] == Normalize(s[a..b])
  {
    var x := Normalize(s)[a..b];
    var y := Normalize(s[a..b]);
    forall i | 0 <= i < b - a ensures x[i] == y[i] {
      assert x[i] == Normalize(s)[a + i];
      assert s[a..b][i] == s[a + i];
    }
  }

  lemma NormalizeAppend(s: string, t: string)
    ensures Normalize(s + t) == Normalize(s) + Normalize(t)
  {
    var x := Normalize(s + t);
    var y := Normalize(s) + Normalize(t);
    forall i | 0 <= i < |s| + |t| ensures x[i] == y[i] {
      if i < |s| {
        assert (s + t)[i] == s[i];
      } else {
        assert (s + t)[i] == t[i - |s|];
      }
    }
  }

  /** A character the pass neither rewrites nor produces. */
  predicate Untouched(c: char) {
    !IsSeparator(c) && c != ' '
  }

  /** A pattern of untouched characters occurs in a normalised name exactly
      where it occurred in the original. */
  lemma NormalizeKeepsOccurrences(s: string, pat: string, i: int)
    requires forall k :: 0 <= k < |pat| ==> Untouched(pat[k])
    ensures OccursAt(Normalize(s), pat, i) <==> OccursAt(s, pat, i)
  {
    if 0 <= i && i + |pat| <= |s| {
      NormalizeSlice(s, i, i + |pat|);
      NormalizeFixesClean(pat);
      if OccursAt(Normalize(s), pat, i) {
        var w := s[i..i + |pat|];
        assert Normalize(w) == pat;
        forall k | 0 <= k < |w| ensures w[k] == pat[k] {
          assert NormalizeChar(w[k]) == pat[k];
        }
      }
    }
  }

  /** ... and so its first occurrence is at the same index. */
  lemma NormalizeKeepsIndexOf(s: string, pat: string)
    requires forall k :: 0 <= k < |pat| ==> Untouched(pat[k])
    ensures IndexOf(Normalize(s), pat) == IndexOf(s, pat)
  {
    forall i ensures OccursAt(Normalize(s), pat, i) <==> OccursAt(s, pat, i) {
      NormalizeKeepsOccurrences(s, pat, i);
    }
  }

  /** ... and a name ends with it exactly when the normalised name does. */
  lemma NormalizeKeepsEndsWith(s: string, suffix: string)
    requires forall k :: 0 <= k < |suffix| ==> Untouched(suffix[k])
    ensures EndsWith(Normalize(s), suffix) <==> EndsWith(s, suffix)
  {
    if |suffix| <= |s| {
      NormalizeKeepsOccurrences(s, suffix, |s| - |suffix|);
    }
  }

  /** Normalising a name keeps it a video name. */
  lemma NormalizeKeepsVideoName(name: string)
    ensures IsVideoName(Normalize(name)) == IsVideoName(name)
  {
    FixedPartsUntouched();
    NormalizeKeepsEndsWith(name, Mp4);
    NormalizeKeepsEndsWith(name, Webm);
  }

  /** Cutting a run out of a name commutes with normalisation. */
  lemma NormalizeDelete(s: string, i: int, j: int)
    requires 0 <= i <= j <= |s|
    ensures Normalize(s[..i] + s[j..]) == Normalize(s)[..i] + Normalize(s)[j..]
  {
    var head := s[..i];
    var tail := s[j..];
    NormalizeAppend(head, tail);
    NormalizeSlice(s, 0, i);
    NormalizeSlice(s, j, |s|);
    assert s[0..i] == head && s[j..|s|] == tail;
    var n := Normalize(s);
    assert n[0..i] == n[..i] && n[j..|n|] == n[j..];
  }

  /** The fixed name parts hold no character the pass touches. */
  lemma FixedPartsUntouched()
    ensures forall k :: 0 <= k < |Mp4| ==> Untouched(Mp4[k])
    ensures forall k :: 0 <= k < |Webm| ==> Untouched(Webm[k])
    ensures Normalize(SidecarSuffix) == SidecarSuffix
  {
    NormalizeFixesClean(SidecarSuffix);
  }

  /** The title of a normalised name is the normalised title. */
  lemma NormalizeCommutesWithTitle(name: string)
    ensures Title(Normalize(name)) == Normalize(Title(name))
  {
    FixedPartsUntouched();
    NormalizeKeepsIndexOf(name, Mp4);
    match IndexOf(name, Mp4)
    case None =>
    case Some(i) =>
      var n := Normalize(name);
      DeleteFirst(name, Mp4);
      DeleteFirst(n, Mp4);
      NormalizeDelete(name, i, i + |Mp4|);
  }

  /** `path.basename(_, '.mp4')` commutes with normalisation. */
  lemma NormalizeCommutesWithBaseName(title: string)
    ensures BaseName(Normalize(title), Mp4) == Normalize(BaseName(title, Mp4))
  {
    FixedPartsUntouched();
    NormalizeKeepsEndsWith(title, Mp4);
    if EndsWith(title, Mp4) {
      NormalizeSlice(title, 0, |title| - |Mp4|);
    }
  }

  /** The sidecar looked up for a normalised title is the normalised
      sidecar name. */
  lemma NormalizeCommutesWithSidecar(title: string)
    ensures SidecarName(Normalize(title)) == Normalize(SidecarName(title))
  {
    var b := BaseName(title, Mp4);
    NormalizeCommutesWithBaseName(title);
    FixedPartsUntouched();
    NormalizeAppend(b, SidecarSuffix);
  }

  /** A video and the sidecar written beside it stay paired through the
      pass: the renamed video is still listed, and its title leads to the
      renamed sidecar. */
  lemma NormalizeKeepsSidecarPairing(name: string)
    ensures IsVideoName(Normalize(name)) == IsVideoName(name)
    ensures SidecarName(Title(Normalize(name))) == Normalize(SidecarName(Title(name)))
  {
    NormalizeKeepsVideoName(name);
    NormalizeCommutesWithTitle(name);
    NormalizeCommutesWithSidecar(Title(name));
  }

  /** One planned `fs.rename(old, new)`. */
  datatype Rename = Rename(from: string, to: string)

  /** The pass over a directory listing: one rename per name, in listing
      order, including names that do not change. */
  function RenamePass(names: seq<string>): (r: seq<Rename>)
    ensures |r| == |names|
    ensures forall i :: 0 <= i < |r| ==> r[i].from == names[i]
    ensures forall i :: 0 <= i < |r| ==> r[i].to == Normalize(names[i])
  {
    seq(|names|, i requires 0 <= i < |names| => Rename(names[i], Normalize(names[i])))
  }

  /** The names the folder holds after the pass, assuming every rename
      succeeds and the targets are distinct. */
  function Targets(renames: seq<Rename>): (r: seq<string>)
    ensures |r| == |renames|
    ensures forall i :: 0 <= i < |r| ==> r[i] == renames[i].to
  {
    seq(|renames|, i requires 0 <= i < |renames| => renames[i].to)
  }

  /** After the pass no name holds `_` or `-`, and running the pass again
      renames every file onto itself. */
  lemma RenamePassIdempotent(names: seq<string>)
    ensures forall i, k :: 0 <= i < |names| && 0 <= k < |Targets(RenamePass(names))[i]| ==>
      !IsSeparator(Targets(RenamePass(names))[i][k])
    ensures forall r :: r in RenamePass(Targets(RenamePass(names))) ==> r.from == r.to
  {
    var after := Targets(RenamePass(names));
    forall i | 0 <= i < |after| ensures Normalize(after[i]) == after[i] {
      NormalizeIdempotent(names[i]);
    }
  }
}

=== FILE: search.dfy ===
/** The title search of `filterVideosByTitle`: keep the entries whose
    lower-cased title includes the lower-cased query. */
module Search {
  import opened JsStrings
  import opened Seqs
  import opened Catalog

  /** `video.title.toLowerCase().includes(query.toLowerCase())`. */
  function Matches(title: string, query: string): (b: bool)
    ensures b <==> exists i :: OccursAt(ToLower(title), ToLower(query), i)
  {
    var found := Includes(ToLower(title), ToLower(query));
    assert found ==> exists i :: OccursAt(ToLower(title), ToLower(query), i) by {
      if found {
        var i :| OccursAt(ToLower(title), ToLower(query), i);
        assert OccursAt(ToLower(title), ToLower(query), i);
      }
    }
    found
  }

  /** The filter callback for one query. */
  function Matcher(query: string): (p: Video -> bool)
    ensures forall v :: p(v) == Matches(v.title, query)
  {
    (v: Video) => Matches(v.title, query)
  }

  /** The entries whose title matches, as an order-preserving sublist. */
  function FilterByTitle(videos: seq<Video>, query: string): (r: seq<Video>)
    ensures forall v :: v in r <==> v in videos && Matches(v.title, query)
    ensures Sublist(r, videos)
    ensures forall v :: multiset(r)[v] == if Matches(v.title, query) then multiset(videos)[v] else 0
  {
    FilterIsSublist(Matcher(query), videos);
    FilterMultiplicity(Matcher(query), videos);
    Filter(Matcher(query), videos)
  }

  /** Searching two runs of entries searches each run in turn. */
  lemma FilterByTitleAppend(a: seq<Video>, b: seq<Video>, query: string)
    ensures FilterByTitle(a + b, query) == FilterByTitle(a, query) + FilterByTitle(b, query)
  {
    FilterAppend(Matcher(query), a, b);
  }

  /** The empty query matches every title, so every entry is returned. */
  lemma EmptyQueryKeepsAll(videos: seq<Video>)
    ensures FilterByTitle(videos, "") == videos
  {
    forall i | 0 <= i < |videos| ensures Matcher("")(videos[i]) {
      IncludesEmpty(ToLower(videos[i].title));
    }
    FilterKeepsAll(Matcher(""), videos);
  }

  /** Matching ignores the ASCII case of both the title and the query. */
  lemma MatchesIgnoresCase(title: string, query: string)
    ensures Matches(ToLower(title), query) == Matches(title, query)
    ensures Matches(title, ToLower(query)) == Matches(title, query)
  {
    ToLowerIdempotent(title);
    ToLowerIdempotent(query);
  }

  /** A query that, letter for letter ignoring ASCII case, opens the title
      matches it. */
  lemma LowerPrefixMatches(title: string, query: string)
    requires |query| <= |title|
    requires forall k :: 0 <= k < |query| ==> LowerChar(title[k]) == LowerChar(query[k])
    ensures Matches(title, query)
  {
    var t := ToLower(title);
    var q := ToLower(query);
    assert t[..|q|] == q;
    assert OccursAt(t, q, 0);
  }

  /** The query `cat` matches the title `Cats are great`. */
  lemma CatMatchesCats()
    ensures Matches("Cats are great", "cat")
  {
    LowerPrefixMatches("Cats are great", "cat");
  }
}

=== FILE: seqs.dfy ===
/** Order-preserving filtering of sequences: the shape of both
    `Array.prototype.filter` calls in the controller (the directory listing
    and the title search). */
module Seqs {

  /** `a` can be obtained from `b` by deleting elements, without reordering. */
  predicate Sublist<T(==)>(a: seq<T>, b: seq<T>)
    decreases |b|
  {
    if a == [] then true
    else if b == [] then false
    else if a[0] == b[0] then Sublist(a[1..], b[1..])
    else Sublist(a, b[1..])
  }

  /** `Array.prototype.filter`: keep the elements satisfying `p`, in order. */
  function Filter<T(!new)>(p: T -> bool, s: seq<T>): (r: seq<T>)
    ensures |r| <= |s|
    ensures forall x :: x in r <==> x in s && p(x)
  {
    if s == [] then []
    else
      assert s == [s[0]] + s[1..];
      if p(s[0]) then [s[0]] + Filter(p, s[1..]) else Filter(p, s[1..])
  }

  /** The filter keeps every copy of a passing element and no copy of a
      failing one. */
  lemma {:induction false} FilterMultiplicity<T(!new)>(p: T -> bool, s: seq<T>)
    ensures forall x :: multiset(Filter(p, s))[x] == if p(x) then multiset(s)[x] else 0
    decreases |s|
  {
    if s != [] {
      FilterMultiplicity(p, s[1..]);
      assert s == [s[0]] + s[1..];
      assert multiset(s) == multiset{s[0]} + multiset(s[1..]);
      if p(s[0]) {
        assert multiset(Filter(p, s)) == multiset{s[0]} + multiset(Filter(p, s[1..]));
      }
    }
  }

  /** Filtering distributes over concatenation: nothing is reordered across
      the boundary. */
  lemma {:induction false} FilterAppend<T(!new)>(p: T -> bool, a: seq<T>, b: seq<T>)
    ensures Filter(p, a + b) == Filter(p, a) + Filter(p, b)
    decreases |a|
  {
    if a == [] {
      assert a + b == b;
    } else {
      var ab := a + b;
      assert ab[0] == a[0];
      assert ab[1..] == a[1..] + b;
      FilterAppend(p, a[1..], b);
      if p(a[0]) {
        calc {
          Filter(p, ab);
          [a[0]] + Filter(p, a[1..] + b);
          [a[0]] + (Filter(p, a[1..]) + Filter(p, b));
          ([a[0]] + Filter(p, a[1..])) + Filter(p, b);
        }
      } else {
        assert Filter(p, ab) == Filter(p, a[1..] + b);
      }
    }
  }

  /** The filter's result is an order-preserving sublist of its input. */
  lemma {:induction false} FilterIsSublist<T(!new)>(p: T -> bool, s: seq<T>)
    ensures Sublist(Filter(p, s), s)
    decreases |s|
  {
    if s != [] {
      FilterIsSublist(p, s[1..]);
      var f := Filter(p, s[1..]);
      if p(s[0]) {
        assert Filter(p, s) == [s[0]] + f;
        assert ([s[0]] + f)[1..] == f;
      } else {
        assert Filter(p, s) == f;
        if f != [] {
          assert f[0] in f;
          assert p(f[0]);
          assert f[0] != s[0];
        }
      }
    }
  }

  /** When every element passes, the filter is the identity. */
  lemma {:induction false} FilterKeepsAll<T(!new)>(p: T -> bool, s: seq<T>)
    requires forall i :: 0 <= i < |s| ==> p(s[i])
    ensures Filter(p, s) == s
    decreases |s|
  {
    if s != [] {
      FilterKeepsAll(p, s[1..]);
      assert [s[0]] + s[1..] == s;
    }
  }
}

=== FILE: snapshot.dfy ===
/** An immutable snapshot of the two folders the controller touches, in
    place of `fs.readdirSync`, `fs.stat`, `fs.existsSync` and
    `fs.readFileSync`. */
module Snapshot {
  import opened Wrappers

  /** What `fs.stat` reports about a name. A regular file carries its byte
      size and, for the metadata sidecars, the outcome of `JSON.parse` on its
      text: `Some(t)` where `t` is the parsed value written back out by
      `JSON.stringify`, `None` when `JSON.parse` throws. */
  datatype Node = File(size: nat, json: Option<string>) | Folder

  /** A folder: the names `readdir` returns, in its order, and what `stat`
      finds for each name. The two views are taken independently, as the
      controller reads them at different moments; a name absent from
      `nodes` is one `stat` reports as missing. */
  datatype Dir = Dir(names: seq<string>, nodes: map<string, Node>)

  /** The `videos/` folder and the `thumbnails/` folder. */
  datatype Fs = Fs(videos: Dir, thumbnails: Dir)

  /** `stat` succeeds: the name exists, as a file or a folder. */
  predicate Exists(d: Dir, name: string) {
    name in d.nodes
  }

  /** `stat` succeeds and `isFile()` holds. */
  predicate IsRegularFile(d: Dir, name: string) {
    name in d.nodes && d.nodes[name].File?
  }

  /** The folder after a new file has been written under `name` (an existing
      entry of that name is overwritten). */
  function WriteFile(d: Dir, name: string, node: Node): (r: Dir)
    requires node.File?
    ensures IsRegularFile(r, name) && r.nodes[name] == node
    ensures name in r.names
    ensures forall n :: n != name ==> (n in r.nodes <==> n in d.nodes)
    ensures forall n :: n != name && n in d.nodes ==> r.nodes[n] == d.nodes[n]
  {
    Dir(if name in d.names then d.names else d.names + [name], d.nodes[name := node])
  }
}

=== FILE: wrappers.dfy ===
/** Optional values and fallible results, used wherever the controller can
    come back without a value or throw. */
module Wrappers {

  datatype Option<+T> = None | Some(value: T)

  datatype Result<+T, +E> = Ok(value: T) | Err(error: E)
}
